=== FILE: README.md ===
# Clave Única sign-in: claim mapping, session callbacks and environment schema

This project models the logic of a Next.js application that signs users in
with Clave Única, the Chilean government's OpenID Connect identity provider,
through the Auth.js library:

- **Profile mapping** (`ClaveUnica`): the provider's `profile` callback. It turns
  the provider's claims into the identity record the library keeps. The claims are
  `sub`, `name: {nombres, apellidos}` and `RolUnico: {numero, DV, tipo}`. The record's
  `id`/`sub` is `numero-DV`. Its `name` is the given names and the family names,
  each space-joined, with one space between. `given_name`, `family_name` and
  `middle_name` become `null` when their source list is too short. `locale` is
  `"es-CL"`, and the raw `RolUnico` and `name` are passed through.
- **Token and session callbacks** (`AuthCallbacks`). `jwt` copies the provider's
  account id into `token.id` and `token.sub`, but only on a Clave Única sign-in.
  `session` copies a truthy `token.id` onto `session.user.id` when there is a user.
  Both assign fields of the object they receive and return that same object. They
  are modelled as methods on `Token` and `Session` classes. Each method is proved
  against a pure update function, `JwtUpdate` or `SessionUpdate`. The frame
  properties are `ensures` clauses of those functions, and idempotence is a lemma
  about each of them.
- **Environment schema** (`Env`): `createEnv` over the raw runtime values.
  It covers the required variables, the `NODE_ENV` and `CLAVE_UNICA_URL` defaults,
  and the `WITH_REDIRECT` rule (only `"false"` and `"0"` are false; the default
  `"false"` is transformed too). Empty strings count as unset, and a non-empty
  `SKIP_ENV_VALIDATION` bypasses validation. The URL check of the schema library is
  the function parameter `isUrl`, about which nothing is assumed. The login page's
  choice of target, `/private-redirect` or `/private`, is modelled on top of it.
- **Strings** (`Text`): JavaScript's `join`, and the decimal rendering of a
  non-negative integer in a template literal. Their inverses, `split` on one
  character and decimal parsing, are defined so that round-trip lemmas can say what
  the rendered strings mean.

With the bypass, the schema library returns the runtime values unvalidated
(empty strings already removed). The `WITH_REDIRECT` transform then does not run,
so the page reads the raw string for truthiness. `Env.SkippedTargetIgnoresTransform`
states the consequence: `WITH_REDIRECT="false"` leads to `/private-redirect` in that
mode. This is `skipValidation` as `@t3-oss/env` implements it; that code is outside
this repository.

`numero` is a `nat`. The mapping ignores the provider's own `sub` claim: the
record's `sub` is always the `numero-DV` identifier.

## Model

| member | source | states |
|---|---|---|
| `Text.Join` | src/lib/auth/config.ts:50 | JavaScript's `join`: no parts give the empty string and the first part opens the result; its meaning is fixed by `JoinAppend`, `SplitJoin` and `JoinSplit` |
| `Text.NatToString` | src/lib/auth/config.ts:53 | the rendering of `numero` is a non-empty string of decimal digits with no leading zero unless it is "0" |
| `Text.ParseNatToString` | src/lib/auth/config.ts:53 | parsing the decimal rendering gives the number back |
| `Text.NatToStringInjective` | src/lib/auth/config.ts:53 | distinct numbers render differently |
| `Text.SplitJoin` | src/lib/auth/config.ts:49-50 | splitting a space-join recovers the parts when none contains a space |
| `Text.JoinSplit` | src/lib/auth/config.ts:49-50 | joining the fields of a split restores the string |
| `Text.SplitConcat` | src/lib/auth/config.ts:49-50 | splitting `a + sep + b` splits `a` and `b` independently |
| `Text.JoinAppend` | src/lib/auth/config.ts:49-50 | joining two non-empty lists puts exactly one separator where they meet |
| `ClaveUnica.Profile` | src/lib/auth/config.ts:47-74 | `sub` equals `id`; `locale` is "es-CL"; `RolUnico` and `nombreRaw` are the input's; `given_name` is present exactly when `nombres` is non-empty and is then `nombres[0]`; `family_name` is present exactly when `apellidos` is non-empty and is then the space-join of `apellidos`; `middle_name` is present exactly when there are at least two `nombres` and is then the space-join of the `nombres` after the first |
| `ClaveUnica.IndexOf` | src/lib/auth/config.ts:53 | helper for reading back the identifier built at that line: the first position of a character, or the length when it does not occur |
| `ClaveUnica.RutIdRoundTrip` | src/lib/auth/config.ts:53 | reading `numero-DV` back at its first hyphen yields exactly `numero` and `DV` |
| `ClaveUnica.ProfileId` | src/lib/auth/config.ts:53-58 | `id` and `sub` are exactly the canonical decimal rendering of `numero` (digits only, no leading zero), "-", `DV`: they read back to the claim's number and check digit, and two profiles share an `id` exactly when they share both |
| `ClaveUnica.ProfileNameJoin` | src/lib/auth/config.ts:49-50 | for every input, spaces inside parts included, `name` is the space-join of the given names followed by the family names, an empty list counting as one empty part (so the separating space is always present) |
| `ClaveUnica.ProfileNameComposition` | src/lib/auth/config.ts:49-69 | with both lists non-empty, `name` is `given_name`, then " " and `middle_name` when present, then " " and `family_name` |
| `ClaveUnica.ProfileNameWords` | src/lib/auth/config.ts:49-50 | when no name part contains a space, the words of `name` are the `nombres` followed by the `apellidos`, an empty list counting as one empty word (leading or trailing space) |
| `ClaveUnica.ProfileNameSeparator` | src/lib/auth/config.ts:49-50 | `name` always holds the joined `nombres` followed by a space; empty `nombres` gives a leading space and empty `apellidos` a trailing one |
| `ClaveUnica.ProfilePartialNames` | src/lib/auth/config.ts:62-69 | when no name part contains a space, the words of `family_name` are the `apellidos` and those of `middle_name` are the `nombres` after the first |
| `ClaveUnica.MockRutId` | oidc/index.js:12-22 | the development provider's `numero` 12345678 and `DV` "9" give "12345678-9" |
| `ClaveUnica.MockProfileIdentity` | oidc/index.js:12-28 | the development provider's payload maps to id "12345678-9", name "María Carmen Del Río Gonzalez", given "María", middle "Carmen", family "Del Río Gonzalez" |
| `AuthCallbacks.JwtUpdate` | src/lib/auth/config.ts:109-116 | on a Clave Única sign-in `id` and `sub` become the account id; in every other case, including no account, the token is unchanged; other claims never change |
| `AuthCallbacks.Jwt` | src/lib/auth/config.ts:109-116 | updates the token in place as `JwtUpdate` says and returns the same token |
| `AuthCallbacks.JwtIdempotent` | src/lib/auth/config.ts:109-116 | a second `jwt` with the same arguments changes nothing |
| `AuthCallbacks.SessionUpdate` | src/lib/auth/config.ts:129-135 | the user's `id` becomes the token's id exactly when that id is truthy and a user exists; otherwise the session is unchanged; no other field ever changes |
| `AuthCallbacks.SessionCallback` | src/lib/auth/config.ts:129-135 | updates the session's user in place as `SessionUpdate` says and returns the same session; the token is not modified |
| `AuthCallbacks.SessionIdempotent` | src/lib/auth/config.ts:129-135 | applying `session` twice equals applying it once |
| `AuthCallbacks.SignInReachesSession` | src/lib/auth/config.ts:109-135 | after a Clave Única sign-in with a non-empty account id, `session` gives the user exactly that id and changes nothing else of it |
| `AuthCallbacks.MockSignInSession` | src/lib/auth/config.ts:47-135 | with the account id taken from the mapped development profile, the session user's id is "12345678-9" |
| `AuthCallbacks.SignInThenSession` | src/lib/auth/config.ts:109-135 | running `jwt` then `session` on live objects sets the token's `id` and `sub` and the user's id to the account id, and keeps the other token claims, user fields and expiry |
| `Env.StripEmpty` | src/env.ts:58-61 | a variable set to "" is removed; every other value is kept |
| `Env.CreateEnv` | src/env.ts:4-62 | the bypass gives exactly the unvalidated outcome; a refusal names at least one variable; a validated `WITH_REDIRECT` is false exactly when unset, empty, "false" or "0"; `NODE_ENV` defaults to development and otherwise is one of "development", "test", "production", mapped to the matching environment; `CLAVE_UNICA_URL` defaults to the national issuer and passes the URL check; required values are non-empty and passed on unchanged; both URLs pass the URL check |
| `Env.ParsersMatchSchema` | src/env.ts:9-35 | each field's parser succeeds exactly when the schema accepts the variable's raw value |
| `Env.CreateEnvAccepts` | src/env.ts:9-35 | without the bypass, validation succeeds exactly when every variable is acceptable, so a missing or empty required variable fails it |
| `Env.CreateEnvFailing` | src/env.ts:9-35 | without the bypass, a refusal names exactly the unacceptable variables |
| `Env.EmptyIsAbsent` | src/env.ts:58-61 | setting any variable to "" gives the same outcome as leaving it unset |
| `Env.SkipNeverFails` | src/env.ts:52-56 | a non-empty `SKIP_ENV_VALIDATION` never produces a refusal, whatever the other values |
| `Env.CoerceFlag` | src/env.ts:23 | the `WITH_REDIRECT` transform is false for exactly the two strings "false" and "0" |
| `Env.CoerceFlagExamples` | src/env.ts:20-24 | "false" and "0" coerce to false; "FALSE", "no", "1", "true" and "" coerce to true; an unset flag is false |
| `Env.SignInTarget` | src/app/page.tsx:9 | the target is one of the two fixed routes, and "/private" exactly when the flag is false |
| `Env.ValidatedTarget` | src/app/page.tsx:9 | with a validated configuration, the user is sent to "/private" exactly when `WITH_REDIRECT` is unset, empty, "false" or "0" |
| `Env.SkippedTargetIgnoresTransform` | src/app/page.tsx:9 | with the bypass, any non-empty `WITH_REDIRECT`, "false" included, sends the user to "/private-redirect" |

## Left out

- The sign-in server action (src/components/clave-unica-form/action.tsx) is not modelled. It is a call into the library plus Next.js throw-to-redirect control flow. It sends authentication errors to `/error?error=<message>`, while the configured error page is `/auth/error` (src/lib/auth/config.ts:90). The model does not reconcile the two.
- The logout button is not modelled: browser navigation, `window.location`, a timer and an asynchronous sign-out are I/O and timing.
- The development identity provider (oidc/index.js) is not modelled: a network listener, key generation and event hooks. Its fixed payload is used as a test vector.
- Pages and components are not modelled apart from the one-line redirect choice (rendering and CSS).
- The provider descriptor constants (issuer, scopes, checks, `idToken`) and the `debug` flag are static configuration without behaviour.
- URL syntax is the parameter `isUrl`. The enum check is written out for the three names.
- `createEnv`'s split between server and client is not modelled. In the browser only the client variable is validated, and reading a server variable there throws. The model is the server-side run.
- Validation failure is the `Invalid` outcome. The thrown error and its message are not modelled.
- `ClaveUnica.Profile`: `numero` is a `nat`. A JavaScript number that is negative, fractional or beyond 2^53 renders differently and is not modelled. Malformed claims with missing arrays are not modelled either, since the source's type declares both arrays.
- `AuthCallbacks.MockSignInSession`: assumes the library sets `account.providerAccountId` to the mapped profile's `id`. The library is not part of this model.
- `AuthCallbacks.Token`: `null` and `undefined` for `token.id` are both `None`. Neither is truthy, so the callbacks treat them alike.

=== FILE: auth_callbacks.dfy ===
/**
 * The `jwt` and `session` callbacks of the authentication configuration
 * (src/lib/auth/config.ts). Both receive an object from the authentication
 * library, assign some of its fields in place under a guard, and hand the
 * same object back. Each is a method on the mutable objects, proved against a
 * pure update function on their values; the properties of the callbacks are
 * stated about those functions.
 */
module AuthCallbacks {
  import opened Wrappers
  import ClaveUnica

  /** The provider id under which Clave Única is registered. */
  const ClaveUnicaProviderId: string := "clave-unica"

  /** The event that made the library call `jwt`. */
  datatype Trigger = SignIn | SignUp | Update

  /** The OAuth account record the library passes on sign-in. */
  datatype Account = Account(provider: string, providerAccountId: string)

  /** The value of a token: `id` and `sub`, and every other claim (name, email, picture, ...). */
  datatype TokenClaims = TokenClaims(id: Option<string>, sub: Option<string>, others: map<string, string>)

  /** The JSON Web Token the library hands to `jwt` and `session`. */
  class Token {
    var id: Option<string>
    var sub: Option<string>
    var others: map<string, string>

    constructor (claims: TokenClaims)
      ensures Claims() == claims
    {
      id, sub, others := claims.id, claims.sub, claims.others;
    }

    function Claims(): TokenClaims
      reads this
    {
      TokenClaims(id, sub, others)
    }
  }

  /** The guard of `jwt`: a sign-in through the Clave Única provider. */
  predicate IsClaveUnicaSignIn(trigger: Option<Trigger>, account: Option<Account>)
  {
    trigger == Some(SignIn) && account.Some? && account.value.provider == ClaveUnicaProviderId
  }

  /**
   * What `jwt` does to a token's value: on a Clave Única sign-in, `id` and
   * `sub` become the provider's account id; otherwise nothing changes. The
   * other claims are never touched. `trigger` is `None` when the library
   * passes none.
   */
  function JwtUpdate(trigger: Option<Trigger>, t: TokenClaims, account: Option<Account>): (r: TokenClaims)
    ensures r.others == t.others
    ensures IsClaveUnicaSignIn(trigger, account) ==>
              r.id == Some(account.value.providerAccountId) && r.sub == r.id
    ensures !IsClaveUnicaSignIn(trigger, account) ==> r == t
  {
    if IsClaveUnicaSignIn(trigger, account) then
      t.(id := Some(account.value.providerAccountId), sub := Some(account.value.providerAccountId))
    else t
  }

  /** The `jwt` callback: updates the token in place and returns it. `trigger` is `None` when the library passes none. */
  method Jwt(trigger: Option<Trigger>, token: Token, account: Option<Account>) returns (r: Token)
    modifies token
    ensures r == token
    ensures token.Claims() == JwtUpdate(trigger, old(token.Claims()), account)
  {
    if IsClaveUnicaSignIn(trigger, account) {
      token.id := Some(account.value.providerAccountId);
      token.sub := Some(account.value.providerAccountId);
    }
    r := token;
  }

  /** Running `jwt` again with the same arguments changes nothing more. */
  lemma JwtIdempotent(trigger: Option<Trigger>, t: TokenClaims, account: Option<Account>)
    ensures JwtUpdate(trigger, JwtUpdate(trigger, t, account), account) == JwtUpdate(trigger, t, account)
  {
  }

  // ---------------------------------------------------------------------------

  /** The value of a session's user: `id`, and the other fields (name, email, image). */
  datatype UserFields = UserFields(id: Option<string>, others: map<string, string>)

  /** The value of a session: its user, if any, and its expiry. */
  datatype SessionFields = SessionFields(user: Option<UserFields>, expires: string)

  class SessionUser {
    var id: Option<string>
    var others: map<string, string>

    constructor (fields: UserFields)
      ensures Fields() == fields
    {
      id, others := fields.id, fields.others;
    }

    function Fields(): UserFields
      reads this
    {
      UserFields(id, others)
    }
  }

  /** The session the library hands to `session`. */
  class Session {
    var user: SessionUser?
    var expires: string

    constructor (user: SessionUser?, expires: string)
      ensures this.user == user && this.expires == expires
    {
      this.user, this.expires := user, expires;
    }

    function Fields(): SessionFields
      reads this, user
    {
      SessionFields(if user == null then None else Some(user.Fields()), expires)
    }
  }

  /** `token?.id`: absent when there is no token. */
  function TokenId(token: Token?): Option<string>
    reads token
  {
    if token == null then None else token.id
  }

  /**
   * What `session` does to a session's value: when the token's id is truthy
   * and there is a user, the user's `id` becomes the token's id; otherwise
   * nothing changes. Nothing else is ever touched.
   */
  function SessionUpdate(s: SessionFields, tokenId: Option<string>): (r: SessionFields)
    ensures r.expires == s.expires
    ensures r.user.Some? <==> s.user.Some?
    ensures r.user.Some? ==> r.user.value.others == s.user.value.others
    ensures Truthy(tokenId) && s.user.Some? ==> r.user.value.id == tokenId
    ensures !(Truthy(tokenId) && s.user.Some?) ==> r == s
  {
    if Truthy(tokenId) && s.user.Some? then s.(user := Some(s.user.value.(id := tokenId)))
    else s
  }

  /** The `session` callback: updates the session's user in place and returns the session. */
  method SessionCallback(session: Session, token: Token?) returns (r: Session)
    modifies session.user
    ensures r == session && session.user == old(session.user)
    ensures session.Fields() == SessionUpdate(old(session.Fields()), old(TokenId(token)))
  {
    if token != null && Truthy(token.id) && session.user != null {
      session.user.id := token.id;
    }
    r := session;
  }

  /** Running `session` twice with the same token is the same as running it once. */
  lemma SessionIdempotent(s: SessionFields, tokenId: Option<string>)
    ensures SessionUpdate(SessionUpdate(s, tokenId), tokenId) == SessionUpdate(s, tokenId)
  {
  }

  /**
   * After a Clave Única sign-in with a non-empty account id, the next
   * `session` call gives any session user exactly that id.
   */
  lemma SignInReachesSession(trigger: Option<Trigger>, t: TokenClaims, account: Option<Account>, s: SessionFields)
    requires IsClaveUnicaSignIn(trigger, account) && account.value.providerAccountId != ""
    requires s.user.Some?
    ensures SessionUpdate(s, JwtUpdate(trigger, t, account).id).user ==
              Some(s.user.value.(id := Some(account.value.providerAccountId)))
  {
  }

  /**
   * End to end with the development provider: when the library takes the
   * account id from the mapped profile's `id`, the session user's id is
   * "12345678-9".
   */
  lemma MockSignInSession(t: TokenClaims, s: SessionFields)
    requires s.user.Some?
    ensures var account := Account(ClaveUnicaProviderId, ClaveUnica.Profile(ClaveUnica.MockProfile).id);
      SessionUpdate(s, JwtUpdate(Some(SignIn), t, Some(account)).id).user.value.id == Some("12345678-9")
  {
    ClaveUnica.MockProfileIdentity();
  }

  /** The two callbacks run in the order the library runs them on a sign-in. */
  method SignInThenSession(token: Token, account: Account, session: Session) returns (r: Session)
    requires account.provider == ClaveUnicaProviderId && account.providerAccountId != ""
    requires session.user != null
    modifies token, session.user
    ensures r == session && session.user == old(session.user)
    ensures token.Claims() == JwtUpdate(Some(SignIn), old(token.Claims()), Some(account))
    ensures token.id == Some(account.providerAccountId) && token.sub == token.id
    ensures token.others == old(token.others)
    ensures session.user.id == Some(account.providerAccountId)
    ensures session.user.others == old(session.user.others) && session.expires == old(session.expires)
  {
    var t := Jwt(Some(SignIn), token, Some(account));
    r := SessionCallback(session, t);
  }
}

=== FILE: clave_unica.dfy ===
/**
 * The Clave Única provider's `profile` callback (src/lib/auth/config.ts):
 * a pure, total mapping from the provider's claim shape (name split into
 * `nombres`/`apellidos`, the RUN split into `numero`/`DV`) to the identity
 * record the authentication library keeps.
 */
module ClaveUnica {
  import opened Wrappers
  import opened Text

  /** The provider's `name` claim. */
  datatype NameClaim = NameClaim(nombres: seq<string>, apellidos: seq<string>)

  /** The provider's `RolUnico` claim: the RUN without and with its check digit. */
  datatype RolUnicoClaim = RolUnicoClaim(numero: nat, DV: string, tipo: string)

  /** What the provider returns from its user-info endpoint. */
  datatype ClaveUnicaProfile = ClaveUnicaProfile(sub: string, name: NameClaim, RolUnico: RolUnicoClaim)

  /** The normalised identity; JavaScript's `null` is `None`. */
  datatype UserIdentity = UserIdentity(
    id: string,
    sub: string,
    name: string,
    given_name: Option<string>,
    family_name: Option<string>,
    middle_name: Option<string>,
    locale: string,
    RolUnico: RolUnicoClaim,
    nombreRaw: NameClaim)

  const Locale: string := "es-CL"
  const Space: string := " "

  /** The identifier `${numero}-${DV}`. */
  function RutId(r: RolUnicoClaim): string
  {
    NatToString(r.numero) + "-" + r.DV
  }

  /** Every given name, a space, every family name. */
  function FullName(n: NameClaim): string
  {
    Join(n.nombres, Space) + Space + Join(n.apellidos, Space)
  }

  /** The `profile` callback. */
  function Profile(p: ClaveUnicaProfile): (u: UserIdentity)
    ensures u.id == u.sub
    ensures u.locale == "es-CL"
    ensures u.RolUnico == p.RolUnico && u.nombreRaw == p.name
    ensures u.given_name.Some? <==> |p.name.nombres| > 0
    ensures u.given_name.Some? ==> u.given_name.value == p.name.nombres[0]
    ensures u.family_name.Some? <==> |p.name.apellidos| > 0
    ensures u.family_name.Some? ==> u.family_name.value == Join(p.name.apellidos, Space)
    ensures u.middle_name.Some? <==> |p.name.nombres| > 1
    ensures u.middle_name.Some? ==> u.middle_name.value == Join(p.name.nombres[1..], Space)
  {
    var fullName := FullName(p.name);
    var id := RutId(p.RolUnico);
    UserIdentity(
      id := id,
      sub := id,
      name := fullName,
      given_name := if |p.name.nombres| > 0 then Some(p.name.nombres[0]) else None,
      family_name := if |p.name.apellidos| > 0 then Some(Join(p.name.apellidos, Space)) else None,
      middle_name := if |p.name.nombres| > 1 then Some(Join(p.name.nombres[1..], Space)) else None,
      locale := Locale,
      RolUnico := p.RolUnico,
      nombreRaw := p.name)
  }

  // ---------------------------------------------------------------------------
  // Reading an identifier back: the partner of RutId.

  /** The position of the first `c` in `s`, or `|s|` when there is none. */
  function IndexOf(s: string, c: char): (i: nat)
    ensures i <= |s|
    ensures i < |s| ==> s[i] == c
    ensures c !in s[..i]
  {
    if |s| == 0 then 0
    else if s[0] == c then 0
    else 1 + IndexOf(s[1..], c)
  }

  /** Splits `numero-DV` at its first hyphen; `None` unless a non-empty run of digits precedes it. */
  function ParseRutId(id: string): Option<(nat, string)>
  {
    var i := IndexOf(id, '-');
    if i == |id| || i == 0 || !AllDigits(id[..i]) then None
    else Some((ParseDecimal(id[..i]), id[i + 1..]))
  }

  lemma {:induction false} IndexOfAfterPrefix(a: string, c: char, b: string)
    requires c !in a
    ensures IndexOf(a + [c] + b, c) == |a|
  {
    if |a| > 0 {
      assert (a + [c] + b)[1..] == a[1..] + [c] + b;
      IndexOfAfterPrefix(a[1..], c, b);
    }
  }

  /** The identifier gives back exactly the number and the check digit it was built from. */
  lemma RutIdRoundTrip(r: RolUnicoClaim)
    ensures ParseRutId(RutId(r)) == Some((r.numero, r.DV))
  {
    var digits := NatToString(r.numero);
    var id := RutId(r);
    assert forall k :: 0 <= k < |digits| ==> digits[k] != '-';
    IndexOfAfterPrefix(digits, '-', r.DV);
    assert id == digits + ['-'] + r.DV;
    assert id[..|digits|] == digits;
    assert id[|digits| + 1..] == r.DV;
    ParseNatToString(r.numero);
  }

  /**
   * `id` and `sub` are both exactly the canonical decimal rendering of
   * `numero`, a hyphen and `DV`: reading the
   * identifier back yields the claim's number and check digit, so two
   * profiles share an identifier only when they share both.
   */
  lemma ProfileId(p: ClaveUnicaProfile, q: ClaveUnicaProfile)
    ensures Profile(p).sub == Profile(p).id
    ensures Profile(p).id == NatToString(p.RolUnico.numero) + "-" + p.RolUnico.DV
    ensures ParseRutId(Profile(p).id) == Some((p.RolUnico.numero, p.RolUnico.DV))
    ensures Profile(p).id == Profile(q).id <==>
              p.RolUnico.numero == q.RolUnico.numero && p.RolUnico.DV == q.RolUnico.DV
  {
    RutIdRoundTrip(p.RolUnico);
    RutIdRoundTrip(q.RolUnico);
  }

  // ---------------------------------------------------------------------------
  // What the name fields mean.

  /** The fields `split(" ")` yields from `xs.join(" ")`: `[""]` for no parts. */
  function Fields(xs: seq<string>): (r: seq<string>)
    ensures |r| > 0
  {
    if |xs| == 0 then [""] else xs
  }

  predicate NoSpaces(xs: seq<string>) {
    forall i :: 0 <= i < |xs| ==> ' ' !in xs[i]
  }

  lemma SplitJoinFields(xs: seq<string>)
    requires NoSpaces(xs)
    ensures Split(Join(xs, Space), ' ') == Fields(xs)
  {
    if |xs| > 0 {
      SplitJoin(xs, ' ');
    }
  }

  /**
   * For every input, with or without spaces inside the parts: the full name
   * joins the given names and the family names as one list, an empty list
   * standing for one empty part, so the separating space is always there.
   */
  lemma ProfileNameJoin(p: ClaveUnicaProfile)
    ensures Profile(p).name == Join(Fields(p.name.nombres) + Fields(p.name.apellidos), Space)
  {
    JoinAppend(Fields(p.name.nombres), Fields(p.name.apellidos), Space);
  }

  /**
   * When both lists are non-empty the full name is the given name, the
   * middle names (if any) after a space, a space, and the family name.
   */
  lemma ProfileNameComposition(p: ClaveUnicaProfile)
    requires |p.name.nombres| > 0 && |p.name.apellidos| > 0
    ensures var u := Profile(p);
      u.given_name.Some? && u.family_name.Some? &&
      u.name == u.given_name.value
                + (if u.middle_name.Some? then Space + u.middle_name.value else "")
                + Space + u.family_name.value
  {
  }

  /**
   * The words of the full name (split on single spaces) are the given names
   * followed by the family names; an empty list still contributes one empty
   * word, because the separating space is always written. So empty `nombres`
   * gives a leading space and empty `apellidos` a trailing one.
   */
  lemma ProfileNameWords(p: ClaveUnicaProfile)
    requires NoSpaces(p.name.nombres) && NoSpaces(p.name.apellidos)
    ensures Split(Profile(p).name, ' ') == Fields(p.name.nombres) + Fields(p.name.apellidos)
  {
    var n := p.name;
    SplitConcat(Join(n.nombres, Space), ' ', Join(n.apellidos, Space));
    SplitJoinFields(n.nombres);
    SplitJoinFields(n.apellidos);
  }

  /**
   * The name is always the given names' join, then the separating space,
   * then the family names' join, whatever the list lengths.
   */
  lemma ProfileNameSeparator(p: ClaveUnicaProfile)
    ensures var g := Join(p.name.nombres, Space);
      |Profile(p).name| > |g| && Profile(p).name[..|g|] == g && Profile(p).name[|g|] == ' '
    ensures |p.name.nombres| == 0 ==> Profile(p).name[0] == ' '
    ensures |p.name.apellidos| == 0 ==> Profile(p).name[|Profile(p).name| - 1] == ' '
  {
  }

  /** The family name's words are the `apellidos`; the middle name's are the `nombres` after the first. */
  lemma ProfilePartialNames(p: ClaveUnicaProfile)
    requires NoSpaces(p.name.nombres) && NoSpaces(p.name.apellidos)
    ensures var u := Profile(p);
      (u.family_name.Some? ==> Split(u.family_name.value, ' ') == p.name.apellidos) &&
      (u.middle_name.Some? ==> Split(u.middle_name.value, ' ') == p.name.nombres[1..])
  {
    var n := p.name;
    if |n.apellidos| > 0 {
      SplitJoin(n.apellidos, ' ');
    }
    if |n.nombres| > 1 {
      SplitJoin(n.nombres[1..], ' ');
    }
  }

  /** The profile served by the development identity provider. */
  const MockProfile: ClaveUnicaProfile :=
    ClaveUnicaProfile(
      "12345678",
      NameClaim(["María", "Carmen"], ["Del Río", "Gonzalez"]),
      RolUnicoClaim(12345678, "9", "RUN"))

  lemma MockRutId()
    ensures RutId(MockProfile.RolUnico) == "12345678-9"
  {
    assert NatToString(1) == "1";
    assert NatToString(12) == "12";
    assert NatToString(123) == "123";
    assert NatToString(1234) == "1234";
    assert NatToString(12345) == "12345";
    assert NatToString(123456) == "123456";
    assert NatToString(1234567) == "1234567";
    assert NatToString(12345678) == "12345678";
  }

  /** The identity the mapping produces for the development provider's fixed payload. */
  lemma MockProfileIdentity()
    ensures var u := Profile(MockProfile);
      u.id == "12345678-9" && u.sub == "12345678-9" &&
      u.name == "María Carmen Del Río Gonzalez" &&
      u.given_name == Some("María") &&
      u.middle_name == Some("Carmen") &&
      u.family_name == Some("Del Río Gonzalez") &&
      u.locale == "es-CL"
  {
    MockRutId();
    var n := MockProfile.name;
    assert Join(n.nombres, Space) == "María Carmen" by {
      assert n.nombres[1..] == ["Carmen"];
    }
    assert Join(n.apellidos, Space) == "Del Río Gonzalez" by {
      assert n.apellidos[1..] == ["Gonzalez"];
    }
  }
}

=== FILE: env.dfy ===
/**
 * The environment schema of src/env.ts: which variables are required, their
 * defaults, the string-to-boolean rule for WITH_REDIRECT, empty strings read
 * as absent, and the SKIP_ENV_VALIDATION bypass. URL syntax belongs to the
 * schema library; it is the parameter `isUrl`, about which nothing is assumed.
 */
module Env {
  import opened Wrappers

  /** The variables the schema declares (server side, then the one client-side one). */
  datatype Var =
    | NodeEnv | AuthSecret | ClaveUnicaUrl | ClaveUnicaClientId | ClaveUnicaClientSecret
    | WithRedirect | RedirectUrl | PublicLogoutUrl

  /** The raw runtime values: a variable that is not set has no entry. */
  type RuntimeEnv = map<Var, string>

  datatype NodeEnvironment = Development | Test | Production

  /** The typed configuration a successful validation yields. */
  datatype Config = Config(
    nodeEnv: NodeEnvironment,
    authSecret: string,
    claveUnicaUrl: string,
    clientId: string,
    clientSecret: string,
    withRedirect: bool,
    redirectUrl: string,
    logoutUrl: string)

  /**
   * What `createEnv` produces: the validated configuration; with the bypass,
   * the runtime values as they are; or a refusal naming the failing variables.
   */
  datatype EnvOutcome =
    | Validated(config: Config)
    | Unvalidated(values: RuntimeEnv)
    | Invalid(failing: set<Var>)

  const DefaultClaveUnicaUrl: string := "https://accounts.claveunica.gob.cl/openid"
  const DefaultWithRedirect: string := "false"

  /** Empty strings are treated as absent. */
  function StripEmpty(env: RuntimeEnv): (r: RuntimeEnv)
    ensures forall v :: v in r <==> v in env && env[v] != ""
    ensures forall v :: v in r ==> r[v] == env[v]
  {
    map v | v in env && env[v] != "" :: env[v]
  }

  function Lookup(env: RuntimeEnv, v: Var): Option<string>
  {
    if v in env then Some(env[v]) else None
  }

  /** The WITH_REDIRECT transform. */
  function CoerceFlag(s: string): (b: bool)
    ensures !b <==> s in {"false", "0"}
  {
    s != "false" && s != "0"
  }

  /** `NODE_ENV`: one of three names, "development" when absent. */
  function ParseNodeEnv(v: Option<string>): Option<NodeEnvironment>
  {
    match v
    case None => Some(Development)
    case Some(s) =>
      if s == "development" then Some(Development)
      else if s == "test" then Some(Test)
      else if s == "production" then Some(Production)
      else None
  }

  /** A required string: it must be present. */
  function ParseRequired(v: Option<string>): Option<string>
  {
    v
  }

  /** A URL-shaped string, with an optional default that is checked like a given value. */
  function ParseUrl(v: Option<string>, default: Option<string>, isUrl: string -> bool): Option<string>
  {
    var s := if v.Some? then v else default;
    if s.Some? && isUrl(s.value) then s else None
  }

  /** WITH_REDIRECT: the default literal goes through the same transform. */
  function ParseWithRedirect(v: Option<string>): bool
  {
    CoerceFlag(v.GetOr(DefaultWithRedirect))
  }

  /** The failing variable `v`, or nothing when its value parsed. */
  function FailIf<T>(parsed: Option<T>, v: Var): set<Var>
  {
    if parsed.None? then {v} else {}
  }

  /** Whether a variable is set to a non-empty value. */
  predicate Present(runtime: RuntimeEnv, v: Var)
  {
    v in runtime && runtime[v] != ""
  }

  /**
   * `createEnv` with this schema. `skipValidation` is the value of
   * SKIP_ENV_VALIDATION; `isUrl` is the schema library's URL check.
   */
  function CreateEnv(runtime: RuntimeEnv, skipValidation: Option<string>, isUrl: string -> bool): (o: EnvOutcome)
    ensures o.Unvalidated? <==> Truthy(skipValidation)
    ensures o.Unvalidated? ==> o.values == StripEmpty(runtime)
    ensures o.Invalid? ==> o.failing != {}
    ensures o.Validated? ==>
      var c := o.config;
      // WITH_REDIRECT is false exactly for an absent or empty value, "false" and "0"
      (!c.withRedirect <==>
         !Present(runtime, WithRedirect) || runtime[WithRedirect] == "false" || runtime[WithRedirect] == "0") &&
      // NODE_ENV falls back to "development"
      (!Present(runtime, NodeEnv) ==> c.nodeEnv == Development) &&
      (Present(runtime, NodeEnv) ==>
         runtime[NodeEnv] in {"development", "test", "production"} &&
         (runtime[NodeEnv] == "development" ==> c.nodeEnv == Development) &&
         (runtime[NodeEnv] == "test" ==> c.nodeEnv == Test) &&
         (runtime[NodeEnv] == "production" ==> c.nodeEnv == Production)) &&
      // CLAVE_UNICA_URL falls back to the national provider's issuer
      c.claveUnicaUrl == (if Present(runtime, ClaveUnicaUrl) then runtime[ClaveUnicaUrl] else DefaultClaveUnicaUrl) &&
      isUrl(c.claveUnicaUrl) &&
      // required values are present, non-empty and passed on unchanged
      Present(runtime, AuthSecret) && c.authSecret == runtime[AuthSecret] &&
      Present(runtime, ClaveUnicaClientId) && c.clientId == runtime[ClaveUnicaClientId] &&
      Present(runtime, ClaveUnicaClientSecret) && c.clientSecret == runtime[ClaveUnicaClientSecret] &&
      Present(runtime, RedirectUrl) && c.redirectUrl == runtime[RedirectUrl] && isUrl(c.redirectUrl) &&
      Present(runtime, PublicLogoutUrl) && c.logoutUrl == runtime[PublicLogoutUrl] && isUrl(c.logoutUrl)
  {
    var env := StripEmpty(runtime);
    if Truthy(skipValidation) then Unvalidated(env)
    else
      var nodeEnv := ParseNodeEnv(Lookup(env, NodeEnv));
      var authSecret := ParseRequired(Lookup(env, AuthSecret));
      var claveUnicaUrl := ParseUrl(Lookup(env, ClaveUnicaUrl), Some(DefaultClaveUnicaUrl), isUrl);
      var clientId := ParseRequired(Lookup(env, ClaveUnicaClientId));
      var clientSecret := ParseRequired(Lookup(env, ClaveUnicaClientSecret));
      var withRedirect := ParseWithRedirect(Lookup(env, WithRedirect));
      var redirectUrl := ParseUrl(Lookup(env, RedirectUrl), None, isUrl);
      var logoutUrl := ParseUrl(Lookup(env, PublicLogoutUrl), None, isUrl);
      if nodeEnv.Some? && authSecret.Some? && claveUnicaUrl.Some? && clientId.Some?
         && clientSecret.Some? && redirectUrl.Some? && logoutUrl.Some? then
        Validated(Config(nodeEnv.value, authSecret.value, claveUnicaUrl.value, clientId.value,
                         clientSecret.value, withRedirect, redirectUrl.value, logoutUrl.value))
      else
        Invalid(FailIf(nodeEnv, NodeEnv) + FailIf(authSecret, AuthSecret) + FailIf(claveUnicaUrl, ClaveUnicaUrl)
                + FailIf(clientId, ClaveUnicaClientId) + FailIf(clientSecret, ClaveUnicaClientSecret)
                + FailIf(redirectUrl, RedirectUrl) + FailIf(logoutUrl, PublicLogoutUrl))
  }

  /**
   * The schema, variable by variable, as a reference to check `CreateEnv`
   * against: what a variable's raw value must be for validation to accept it.
   */
  predicate Acceptable(runtime: RuntimeEnv, v: Var, isUrl: string -> bool)
  {
    match v
    case NodeEnv =>
      !Present(runtime, v) || runtime[v] in {"development", "test", "production"}
    case AuthSecret => Present(runtime, v)
    case ClaveUnicaClientId => Present(runtime, v)
    case ClaveUnicaClientSecret => Present(runtime, v)
    case ClaveUnicaUrl => isUrl(if Present(runtime, v) then runtime[v] else DefaultClaveUnicaUrl)
    case WithRedirect => true
    case RedirectUrl => Present(runtime, v) && isUrl(runtime[v])
    case PublicLogoutUrl => Present(runtime, v) && isUrl(runtime[v])
  }

  /** Each field's parser in `CreateEnv` succeeds exactly when the variable is acceptable. */
  lemma ParsersMatchSchema(runtime: RuntimeEnv, isUrl: string -> bool)
    ensures var env := StripEmpty(runtime);
      (ParseNodeEnv(Lookup(env, NodeEnv)).Some? <==> Acceptable(runtime, NodeEnv, isUrl)) &&
      (ParseRequired(Lookup(env, AuthSecret)).Some? <==> Acceptable(runtime, AuthSecret, isUrl)) &&
      (ParseUrl(Lookup(env, ClaveUnicaUrl), Some(DefaultClaveUnicaUrl), isUrl).Some? <==>
         Acceptable(runtime, ClaveUnicaUrl, isUrl)) &&
      (ParseRequired(Lookup(env, ClaveUnicaClientId)).Some? <==> Acceptable(runtime, ClaveUnicaClientId, isUrl)) &&
      (ParseRequired(Lookup(env, ClaveUnicaClientSecret)).Some? <==>
         Acceptable(runtime, ClaveUnicaClientSecret, isUrl)) &&
      (ParseUrl(Lookup(env, RedirectUrl), None, isUrl).Some? <==> Acceptable(runtime, RedirectUrl, isUrl)) &&
      (ParseUrl(Lookup(env, PublicLogoutUrl), None, isUrl).Some? <==> Acceptable(runtime, PublicLogoutUrl, isUrl))
  {
  }

  /**
   * Without the bypass, validation succeeds exactly when every variable is
   * acceptable. In particular a missing or empty AUTH_SECRET,
   * CLAVE_UNICA_CLIENT_ID, CLAVE_UNICA_CLIENT_SECRET or REDIRECT_URL makes
   * validation fail.
   */
  lemma CreateEnvAccepts(runtime: RuntimeEnv, skipValidation: Option<string>, isUrl: string -> bool)
    requires !Truthy(skipValidation)
    ensures CreateEnv(runtime, skipValidation, isUrl).Validated? <==>
              forall v :: Acceptable(runtime, v, isUrl)
  {
    ParsersMatchSchema(runtime, isUrl);
    if forall v :: Acceptable(runtime, v, isUrl) {
      assert Acceptable(runtime, NodeEnv, isUrl) && Acceptable(runtime, AuthSecret, isUrl);
      assert Acceptable(runtime, ClaveUnicaUrl, isUrl) && Acceptable(runtime, ClaveUnicaClientId, isUrl);
      assert Acceptable(runtime, ClaveUnicaClientSecret, isUrl) && Acceptable(runtime, RedirectUrl, isUrl);
      assert Acceptable(runtime, PublicLogoutUrl, isUrl);
    }
  }

  /** Without the bypass, a refusal names exactly the unacceptable variables. */
  lemma CreateEnvFailing(runtime: RuntimeEnv, skipValidation: Option<string>, isUrl: string -> bool)
    requires !Truthy(skipValidation)
    ensures CreateEnv(runtime, skipValidation, isUrl).Invalid? ==>
              forall v :: v in CreateEnv(runtime, skipValidation, isUrl).failing <==> !Acceptable(runtime, v, isUrl)
  {
    ParsersMatchSchema(runtime, isUrl);
  }

  /** Setting a variable to the empty string is the same as leaving it unset. */
  lemma EmptyIsAbsent(runtime: RuntimeEnv, v: Var, skipValidation: Option<string>, isUrl: string -> bool)
    ensures CreateEnv(runtime[v := ""], skipValidation, isUrl) == CreateEnv(runtime - {v}, skipValidation, isUrl)
  {
    assert StripEmpty(runtime[v := ""]) == StripEmpty(runtime - {v});
  }

  /** The bypass never refuses, whatever the other values. */
  lemma SkipNeverFails(runtime: RuntimeEnv, skipValidation: Option<string>, isUrl: string -> bool)
    requires Truthy(skipValidation)
    ensures !CreateEnv(runtime, skipValidation, isUrl).Invalid?
  {
  }

  /** Only the exact strings "false" and "0" are false: case and other spellings do not matter. */
  lemma CoerceFlagExamples()
    ensures !CoerceFlag("false") && !CoerceFlag("0")
    ensures CoerceFlag("FALSE") && CoerceFlag("no") && CoerceFlag("1") && CoerceFlag("true") && CoerceFlag("")
    ensures !ParseWithRedirect(None)
  {
  }

  // ---------------------------------------------------------------------------
  // Where the login page and the sign-in action send an authenticated user.

  /** `WITH_REDIRECT ? "/private-redirect" : "/private"` */
  function SignInTarget(withRedirect: bool): (target: string)
    ensures target in {"/private", "/private-redirect"}
    ensures target == "/private" <==> !withRedirect
  {
    if withRedirect then "/private-redirect" else "/private"
  }

  /**
   * The target for an outcome of `createEnv`: with the bypass the flag is the
   * raw string (or absent), read for its truthiness; after a refusal the
   * application does not start.
   */
  function TargetFor(o: EnvOutcome): Option<string>
  {
    match o
    case Validated(c) => Some(SignInTarget(c.withRedirect))
    case Unvalidated(values) => Some(SignInTarget(Truthy(Lookup(values, WithRedirect))))
    case Invalid(_) => None
  }

  /**
   * With validation, an authenticated user goes to "/private" exactly when
   * WITH_REDIRECT is unset, empty, "false" or "0".
   */
  lemma ValidatedTarget(runtime: RuntimeEnv, skipValidation: Option<string>, isUrl: string -> bool)
    requires CreateEnv(runtime, skipValidation, isUrl).Validated?
    ensures TargetFor(CreateEnv(runtime, skipValidation, isUrl)) == Some("/private") <==>
              !Present(runtime, WithRedirect) || runtime[WithRedirect] == "false" || runtime[WithRedirect] == "0"
  {
  }

  /**
   * With the bypass the transform does not run: WITH_REDIRECT set to "false"
   * is a non-empty string and sends the user to "/private-redirect".
   */
  lemma SkippedTargetIgnoresTransform(runtime: RuntimeEnv, skipValidation: Option<string>, isUrl: string -> bool)
    requires Truthy(skipValidation)
    ensures var o := CreateEnv(runtime, skipValidation, isUrl);
      TargetFor(o) == Some(if Present(runtime, WithRedirect) then "/private-redirect" else "/private")
  {
  }
}

=== FILE: text.dfy ===
/**
 * The string operations the profile mapping relies on: JavaScript's
 * `Array.prototype.join`, the decimal rendering a template literal gives a
 * non-negative integer, and the inverses of both (`String.prototype.split`
 * on one character and decimal parsing), which state what the first two mean.
 */
module Text {

  /**
   * `parts.join(sep)`: the parts in order with `sep` between neighbours.
   * JoinAppend, SplitJoin and JoinSplit below state what that means.
   */
  function Join(parts: seq<string>, sep: string): (r: string)
    ensures |parts| == 0 ==> r == ""
    ensures |parts| > 0 ==> parts[0] <= r
  {
    if |parts| == 0 then ""
    else if |parts| == 1 then parts[0]
    else parts[0] + sep + Join(parts[1..], sep)
  }

  /** `s.split(c)` for a one-character separator: never empty; "" splits into [""]. */
  function Split(s: string, c: char): (r: seq<string>)
    ensures |r| > 0
  {
    if |s| == 0 then [""]
    else
      var rest := Split(s[1..], c);
      if s[0] == c then [""] + rest
      else [[s[0]] + rest[0]] + rest[1..]
  }

  predicate IsDigit(c: char) {
    '0' <= c <= '9'
  }

  predicate AllDigits(s: string) {
    forall i :: 0 <= i < |s| ==> IsDigit(s[i])
  }

  function DigitChar(d: nat): (c: char)
    requires d < 10
    ensures IsDigit(c)
  {
    (d + 48) as char
  }

  function DigitValue(c: char): (d: nat)
    requires IsDigit(c)
    ensures d < 10
  {
    (c as int) - 48
  }

  /**
   * The decimal rendering of `n`, as `${n}` writes a non-negative integer:
   * digits only, never empty, and no leading zero except for "0" itself.
   */
  function NatToString(n: nat): (s: string)
    ensures |s| > 0 && AllDigits(s)
    ensures s[0] == '0' ==> s == "0"
  {
    if n < 10 then [DigitChar(n)]
    else NatToString(n / 10) + [DigitChar(n % 10)]
  }

  /** The value of a string of decimal digits, most significant first. */
  function ParseDecimal(s: string): nat
    requires AllDigits(s)
  {
    if |s| == 0 then 0
    else 10 * ParseDecimal(s[..|s| - 1]) + DigitValue(s[|s| - 1])
  }

  /** Parsing the rendering gives the number back, so the rendering is injective. */
  lemma {:induction false} ParseNatToString(n: nat)
    ensures ParseDecimal(NatToString(n)) == n
  {
    var s := NatToString(n);
    if n >= 10 {
      ParseNatToString(n / 10);
      assert s[..|s| - 1] == NatToString(n / 10);
    }
  }

  lemma NatToStringInjective(m: nat, n: nat)
    requires NatToString(m) == NatToString(n)
    ensures m == n
  {
    ParseNatToString(m);
    ParseNatToString(n);
  }

  /** Splitting a string with no separator in it gives the string alone. */
  lemma {:induction false} SplitNoSeparator(s: string, c: char)
    requires c !in s
    ensures Split(s, c) == [s]
  {
    if |s| > 0 {
      SplitNoSeparator(s[1..], c);
      assert [s[0]] + s[1..] == s;
    }
  }

  /** One step of `Split` on a string given by its first character. */
  lemma SplitCons(x: char, t: string, c: char)
    ensures Split([x] + t, c) ==
      if x == c then [""] + Split(t, c)
      else [[x] + Split(t, c)[0]] + Split(t, c)[1..]
  {
  }

  /** Splitting at a separator splits the two sides independently. */
  lemma {:induction false} SplitConcat(a: string, c: char, b: string)
    ensures Split(a + [c] + b, c) == Split(a, c) + Split(b, c)
  {
    if |a| == 0 {
      assert a + [c] + b == [c] + b;
      SplitCons(c, b, c);
    } else {
      var t := a[1..];
      assert a == [a[0]] + t;
      assert a + [c] + b == [a[0]] + (t + [c] + b);
      SplitConcat(t, c, b);
      SplitCons(a[0], t + [c] + b, c);
      SplitCons(a[0], t, c);
    }
  }

  /** Joining the fields of a split restores the string: Join is a left inverse of Split. */
  lemma {:induction false} JoinSplit(s: string, c: char)
    ensures Join(Split(s, c), [c]) == s
  {
    if |s| > 0 {
      var rest := Split(s[1..], c);
      JoinSplit(s[1..], c);
      if s[0] == c {
        assert Join([""] + rest, [c]) == "" + [c] + Join(rest, [c]) by {
          assert ([""] + rest)[1..] == rest;
        }
        assert [c] + s[1..] == s;
      } else {
        var r := [[s[0]] + rest[0]] + rest[1..];
        if |rest| == 1 {
          assert Join(rest, [c]) == rest[0];
          assert [s[0]] + s[1..] == s;
        } else {
          assert r[1..] == rest[1..];
          assert Join(rest, [c]) == rest[0] + [c] + Join(rest[1..], [c]);
          assert [s[0]] + s[1..] == s;
        }
      }
    }
  }

  /**
   * Splitting a join recovers the parts, provided there is at least one part
   * and no part contains the separator (JavaScript: `xs.join(" ").split(" ")`).
   */
  lemma {:induction false} SplitJoin(parts: seq<string>, c: char)
    requires |parts| > 0
    requires forall i :: 0 <= i < |parts| ==> c !in parts[i]
    ensures Split(Join(parts, [c]), c) == parts
  {
    if |parts| == 1 {
      SplitNoSeparator(parts[0], c);
    } else {
      SplitJoin(parts[1..], c);
      SplitNoSeparator(parts[0], c);
      SplitConcat(parts[0], c, Join(parts[1..], [c]));
      assert [parts[0]] + parts[1..] == parts;
    }
  }

  /** Joining two non-empty lists puts one separator where they meet. */
  lemma {:induction false} JoinAppend(xs: seq<string>, ys: seq<string>, sep: string)
    requires |xs| > 0 && |ys| > 0
    ensures Join(xs + ys, sep) == Join(xs, sep) + sep + Join(ys, sep)
  {
    if |xs| == 1 {
      assert (xs + ys)[1..] == ys;
    } else {
      JoinAppend(xs[1..], ys, sep);
      assert (xs + ys)[1..] == xs[1..] + ys;
    }
  }
}

=== FILE: wrappers.dfy ===
/** The optional value used for JavaScript's `null` / `undefined`. */
module Wrappers {

  datatype Option<+T> = None | Some(value: T) {

    /** The value if present, otherwise `default`. */
    function GetOr(default: T): T {
      match this
      case Some(v) => v
      case None => default
    }
  }

  /** JavaScript truthiness of an optional string (`!!value`): present and non-empty. */
  predicate Truthy(s: Option<string>)
  {
    s.Some? && s.value != ""
  }
}
